=== FILE: README.md ===
# ARize gesture and placement engine, in Dafny

This project models two parts of the ARize web app.

The first is the touch and placement engine of the AR view (`js/ar-engine.js`). The engine keeps one set of module-level variables:
- whether the object is placed;
- the drag and pinch flags;
- the last touch (position, pinch distance, and an optional pinch angle and centre);
- the object's position, scale and rotation;
- the device orientation, and the reference orientation captured at placement.

Canvas touch and mouse events, device-orientation events and the public `placeObject`, `updateScale` and `resetObject` calls update these variables. The model is an immutable `State`, one pure function per handler, and `GestureEngine.Step(state, event)`, which dispatches an event to its handler. `GestureEngine.Initial` holds the variables' declared values (`js/ar-engine.js:18-38`).

Numbers are `real`s. `Math.PI` is the literal 3.141592653589793. The results of `Math.hypot` and `Math.atan2` for a two-finger reading arrive on the event as its `distance` and `angle`.

The second part is `parseURLData` (`js/utils.js:109-121`). It reads the object description from the query string, with JavaScript's `||` defaulting. The query is a `map<string, string>`. `parseInt` is modelled after the ECMAScript standard's `parseInt ( string, radix )` with no radix. It skips leading white space, reads a sign, reads an optional `0x` prefix and takes the longest run of digits. It returns `None` where JavaScript returns NaN.

Modules:
- `Wrappers` holds `Option`.
- `GestureEngine` holds the state, the events, the handlers and `Step`/`Run`.
- `GestureProperties` holds lemmas about single steps and about event streams.
- `JsParseInt` holds `parseInt`, a decimal printer and the round trip between them.
- `UrlParams` holds `parseURLData`, the query a record would be written as, and the round trip.

Behaviour of the code worth knowing when reading the model:
- The twist difference is wrapped into [-PI, PI], with both ends reachable: a raw difference of exactly -PI or exactly PI is kept.
- `updateScale` stores its argument unclamped, so the scale is not always in [0.5, 3.0].
- `placeObject` overwrites the reference orientation each time it is called.
- Mouse-up clears only `isDragging`, not `isScaling`.
- The reference orientation is captured by `placeObject` (`js/ar-engine.js:531-532`). `placeObject` sets the placed flag and the reference together, and `resetObject` clears both together (`js/ar-engine.js:555-556`), so from the initial values the object is placed exactly when a reference exists. The capture in the orientation handler (`js/ar-engine.js:134-136`) is therefore unreachable; `GestureProperties.OrientationNeverCaptures` states this.
- `updateCameraFromOrientation` runs only when `manualRotationMode` is false. That variable is `true` and never reassigned (`js/ar-engine.js:29`), so the camera code is never reached.

## Model

| member | source | states |
|---|---|---|
| GestureEngine.Clamp | js/ar-engine.js:266 | The result is in [0.5, 3.0]. It equals the input inside that range and the nearer bound outside it. |
| GestureEngine.PinchScale | js/ar-engine.js:264-277 | With a recorded distance above 0, the new scale is in [0.5, 3.0]. It is exactly scale times current/last distance when that product is in range, 3.0 when the product is above the range and 0.5 when it is below. An unchanged distance only clamps. A recorded distance of 0 saturates at 3.0 or 0.5, by the sign of the scale. |
| GestureEngine.Wrap | js/ar-engine.js:294-298 | For a raw difference in [-3PI, 3PI] the wrapped value is in [-PI, PI]. It always differs from the raw value by 0, 2PI or -2PI. A raw value already in [-PI, PI] is unchanged. |
| GestureEngine.Center | js/ar-engine.js:261-262 | The pinch centre is equidistant from both touch points on each axis. |
| GestureEngine.Pan | js/ar-engine.js:236-250 | Position x grows by dx*0.01 and y shrinks by dy*0.01, with z unchanged. Scale, rotation, flags and placement stay the same. The last touch becomes the new point. |
| GestureEngine.HandleTouchStart | js/ar-engine.js:204-230 | Unplaced: nothing changes. Placed: dragging starts. One finger records the point. Two fingers start scaling and record distance, angle and centre. Other lengths only set dragging. The transform never changes. |
| GestureEngine.Turn | js/ar-engine.js:280-310 | Centre drift adds dx*0.02 to rotation y and dy*0.02 to rotation x. With a previous angle, rotation z grows by 0.8 times the wrapped difference; without one, z stays. The angle is recorded. Nothing else changes. |
| GestureEngine.PinchMove | js/ar-engine.js:252-314 | A two-finger move never changes position or placement. While scaling it applies PinchScale and records the distance; otherwise scale and distance stay. It always records the current centre. |
| GestureEngine.HandleTouchMove | js/ar-engine.js:232-315 | Unplaced or not dragging: nothing changes. A one-finger move during a pinch and any other touch count change nothing. Flags and placement are never changed. |
| GestureEngine.HandleTouchEnd | js/ar-engine.js:317-322 | Dragging and scaling stop, and angle and centre become undefined. The last point, the pinch distance, the transform and the placement are kept. |
| GestureEngine.HandleMouseStart | js/ar-engine.js:330-335 | Unplaced: nothing changes. Placed: dragging starts at the mouse point. The transform is kept. |
| GestureEngine.HandleMouseMove | js/ar-engine.js:337-353 | Unplaced or not dragging: nothing changes. Flags and placement are never changed. |
| GestureEngine.HandleMouseEnd | js/ar-engine.js:355-357 | Only isDragging changes, to false. |
| GestureEngine.Reading | js/ar-engine.js:130-132 | A missing orientation reading becomes 0; a present one is kept. |
| GestureEngine.HandleOrientation | js/ar-engine.js:129-137 | The normalised reading is stored. An existing reference is never replaced. With no reference and the object placed, the new reading becomes the reference (a state no event stream from the initial values reaches). Unplaced, the reference is untouched. Only the two orientation fields change. |
| GestureEngine.Place | js/ar-engine.js:529-535 | The object is placed and the current orientation becomes the reference. Nothing else changes. |
| GestureEngine.SetScale | js/ar-engine.js:537-542 | The scale becomes the given value, unclamped. Nothing else changes. |
| GestureEngine.Reset | js/ar-engine.js:544-559 | Unplaced, no reference, and the declared default transform: scale 1, rotation 0, position (0,-1,-3). The gesture fields and the device orientation are kept. |
| GestureEngine.Step | js/ar-engine.js:204-559 | Only placement and reset change the placed flag. Only moves, the scale setter and reset change the transform. Only orientation events change the device orientation. |
| GestureEngine.CameraAngles | js/ar-engine.js:450-455 | A camera update happens exactly when a reference exists and tracking is on. It is zero when the device is at the reference. |
| GestureProperties.GestureIgnoredWhileUnplaced | js/ar-engine.js:204-338 | While unplaced, touch and mouse starts and moves leave every field unchanged. |
| GestureProperties.GesturesIgnoredWhileUnplaced | js/ar-engine.js:204-338 | The same over any stream of such events. |
| GestureProperties.MovesIgnoredWhileNotDragging | js/ar-engine.js:232-338 | Without a drag, any stream of touch and mouse moves changes nothing. |
| GestureProperties.OneFingerMovePans | js/ar-engine.js:236-250 | A one-finger move outside a pinch pans by dx*0.01 and -dy*0.01 and records the point. Position z, scale and rotation stay the same. |
| GestureProperties.MouseMovePans | js/ar-engine.js:340-352 | A mouse move during a drag pans the same way. |
| GestureProperties.DragFollowsPointer | js/ar-engine.js:236-352 | Over any stream of drag moves, the displacement depends only on the drag's start point and last point. |
| GestureProperties.PinchScaleClamped | js/ar-engine.js:264-277 | After a pinch move with a recorded distance above 0, the scale is in [0.5, 3.0] and the distance is recorded. Position does not change. |
| GestureProperties.PinchStepsCompose | js/ar-engine.js:264-277 | Two unclamped pinch steps equal one step from the first distance to the last. |
| GestureProperties.PinchExample | js/ar-engine.js:264-266 | From 100 to 150 pixels, scale 1.0 becomes 1.5 and scale 2.5 saturates at 3.0. |
| GestureProperties.CentreDriftRotates | js/ar-engine.js:280-313 | Drift changes only rotation y (+dx*0.02) and x (+dy*0.02), and only when a previous centre exists. Position never changes. The centre is always updated. |
| GestureProperties.TwistRotates | js/ar-engine.js:289-303 | Rotation z grows by exactly 0.8 times the wrapped angle difference. Without a previous angle it stays. The angle is recorded either way. |
| GestureProperties.TwistBounded | js/ar-engine.js:294-300 | For two atan2 angles, the wrapped difference is in [-PI, PI], so a twist step turns z by at most 0.8*PI. |
| GestureProperties.DriftFollowsCentre | js/ar-engine.js:280-313 | Over any stream of two-finger moves, rotation y and x depend only on the first and last centre, and position never changes. |
| GestureProperties.TouchEndStopsGesture | js/ar-engine.js:317-322 | Touch end clears the flags, angle and centre and keeps the transform. Any later stream of moves is ignored. |
| GestureProperties.MouseUpStopsDrag | js/ar-engine.js:355-357 | Mouse-up ends the drag and keeps the transform, the pinch flag and the last touch. Any later stream of moves is ignored. |
| GestureProperties.ResetRestoresDefaults | js/ar-engine.js:555-559 | Whatever the prior state, reset gives the default transform, unplaced, with no reference. Later gestures keep it that way. |
| GestureProperties.PlaceSnapshotsOrientation | js/ar-engine.js:529-532 | Placing sets the flag and snapshots the orientation, and the camera angles start at zero. |
| GestureProperties.OrientationCapturesOnce | js/ar-engine.js:129-136 | A sample sets a reference if and only if none exists and the object is placed. It never overwrites an existing one. |
| GestureProperties.AnchorCapturedAtMostOnce | js/ar-engine.js:134-136 | Once captured, the reference survives every event stream without placement or reset. |
| GestureProperties.PlacementAnchorIsStable | js/ar-engine.js:529-532 | The reference after placing is the orientation at the moment of placing, whatever samples follow. |
| GestureProperties.StepPreservesCoherent | js/ar-engine.js:129-559 | Every event keeps these facts: both centre coordinates are defined together; an angle implies a centre; a reference exists if and only if the object is placed. |
| GestureProperties.RunPreservesCoherent | js/ar-engine.js:129-559 | The same over any event stream. |
| GestureProperties.InitialCoherent | js/ar-engine.js:18-38 | From the declared initial values, every reachable state satisfies those facts. |
| GestureProperties.OrientationNeverCaptures | js/ar-engine.js:134-136 | From the declared initial values, an orientation sample never changes the reference orientation: the capture branch is unreachable. |
| GestureProperties.StepKeepsScaleInRange | js/ar-engine.js:264-266 | Every event keeps the scale in [0.5, 3.0], provided an updateScale value is in that range and a two-finger move has a distance above 0. |
| GestureProperties.RunKeepsScaleInRange | js/ar-engine.js:264-266 | The same over any event stream where every updateScale value is in range and every two-finger move has a distance above 0. |
| GestureProperties.UpdateScaleUnclamped | js/ar-engine.js:537-538 | The direct setter can leave the scale outside [0.5, 3.0]. |
| JsParseInt.ParseInt | js/utils.js:114-117 | Empty text is NaN. |
| JsParseInt.ParseIntOutcome | js/utils.js:114-117 | After leading white space is skipped: blank text, and text that starts with neither a digit nor a sign, is NaN. A first digit from 1 to 9 always yields a number. A negative result needs a leading minus. |
| JsParseInt.ParseShowInt | js/utils.js:114-117 | A decimal numeral followed by text that cannot extend it reads back as its number. After "0", a following x is excluded, since it would start a hex prefix. |
| JsParseInt.ParseShowIntRoundTrip | js/utils.js:114-117 | parseInt of the decimal rendering of any integer is that integer. |
| JsParseInt.WhiteSpaceIgnored | js/utils.js:114-117 | Leading white space and line terminators never change the result. |
| JsParseInt.HexPrefixAloneIsNaN | js/utils.js:114-117 | "0x" with no digits is NaN. |
| JsParseInt.HexDigitsRead | js/utils.js:114-117 | "0x1A" reads as 26. |
| JsParseInt.TrailingTextDropped | js/utils.js:114-117 | "42px" reads as 42: reading stops at the first non-digit. |
| JsParseInt.ExponentNotRead | js/utils.js:114-117 | "1e3" reads as 1. |
| JsParseInt.NegativeZeroIsZero | js/utils.js:114-117 | "-0" reads as 0, which is falsy, so it takes the default. |
| JsParseInt.NullIsNaN | js/utils.js:114-117 | The text "null", which parseInt reads for a missing parameter, is NaN. |
| UrlParams.TextParam | js/utils.js:112-113 | A present, non-empty value is kept. An absent or empty one gives the default. |
| UrlParams.IntParam | js/utils.js:114-117 | Absent, NaN or 0 gives the default. Any other parsed value is kept. With a non-zero default the result is never 0. |
| UrlParams.ParseURLData | js/utils.js:109-121 | id is "demo" and type "bottle" when absent or empty; model defaults to "". frames, duration, quality and confidence default to 30, 60, 85 and 95 and are never 0. is3d holds if and only if raw is3d is "true" or raw type is "3d_model"; the defaulted "bottle" never sets it. The function is total. |
| UrlParams.ParsedIsCanonical | js/utils.js:110-120 | Every result has non-empty id and type, non-zero numbers, and is3d set whenever the type is "3d_model". |
| UrlParams.ParseToQueryRoundTrip | js/utils.js:110-120 | Every such record, written out as a query and parsed again, comes back unchanged. |
| UrlParams.ParseIsIdempotent | js/utils.js:110-120 | Parsing the query written for a parsed record gives the same record. |
| UrlParams.ZeroFallsBackNegativeKept | js/utils.js:114 | frames=0 and frames=abc give 30, but frames=-5 gives -5, since only 0 and NaN are falsy. |

## Left out

- Three.js scene, renderer, lights, model loader and the fallback geometry (`setupThreeJS`, `initializeModelLoader`, `create3DObject`). These are foreign library calls; every `arObject` update in the handlers is left out with them.
- The trigonometric part of `updateCameraFromOrientation` and all of `updateCameraPosition`. These are floating-point sin/cos camera placement. Only the guard and the radian deltas are modelled, and the guard is never reached (see above).
- `setupTouchFallback`. Its touch-move listener declares `const deltaX` twice (`js/ar-engine.js:169-170`). That is an early SyntaxError, so as shipped the whole of `js/ar-engine.js` is rejected and `window.AREngine` is never assigned. The model describes the file with line 169 deleted. The fallback's touch handlers only update a local `cameraRotation`. Its camera call at lines 176-177 is guarded by `objectPlaced`, which the listener has already ruled out at line 165, so the fallback never moves the camera. It sets `isTracking` to true (`js/ar-engine.js:188`). `isTracking` is a parameter of `CameraAngles`.
- `setupDeviceTracking`: permission prompts, listener registration and the 500 ms timer that sets `isTracking`. These are platform I/O and timers; `isTracking` is a parameter of `CameraAngles`.
- `handleMotion`. It writes `deviceMotion`, which nothing in the engine reads.
- The render loop, `updateTrackingStatus`, the scale slider and label writes, the scale notification and its removal timer, `preventDefault`, `init` and `handleResize`. These are UI and scheduling.
- `js/apps.js`, `js/ui-controls.js` and the notification helpers of `js/utils.js`. These are I/O and UI.
- `URLSearchParams` decoding (percent escapes, `+` as space) and repeated keys. The query is the already-decoded map from each name to the value `get` returns.
- GestureEngine.PinchScale: where the source computes NaN (a recorded distance of 0 with a current distance of 0, or with a scale of 0), the model keeps the previous scale, because a real cannot be NaN. In the source, after such a 0/0 pinch the scale is NaN and stays NaN through every later pinch until `updateScale` or `resetObject`.
- GestureProperties.StepKeepsScaleInRange, GestureProperties.RunKeepsScaleInRange: these say nothing about streams with a two-finger move at distance 0, because the source's scale can become NaN there. With a current distance above 0 the source never computes NaN: a recorded 0 gives +Infinity, which clamps to 3.0.
- JsParseInt.ParseInt: returns an unbounded integer. JavaScript rounds results above 2^53 to the nearest double and gives Infinity for numerals beyond the double range.
- GestureEngine.Pan, GestureEngine.Turn, GestureEngine.Wrap, GestureEngine.PinchScale, GestureEngine.CameraAngles, GestureProperties.DragFollowsPointer, GestureProperties.PinchStepsCompose, GestureProperties.DriftFollowsCentre: real arithmetic has no floating-point rounding. The source rounds `objectScale * scaleChange` and the degree-to-radian products in doubles, so the exact equalities (the pinch product, composed pinch steps, path-independent drags and drift, the camera deltas) hold for reals, not bit-for-bit for doubles.

=== FILE: gesture_engine.dfy ===
/** The gesture-and-placement state machine of the AR engine.

    The JavaScript keeps one record of module-level variables and mutates it
    from DOM event handlers that run to completion one at a time. Here that
    record is the immutable `State`, every handler is a pure function from a
    state (and the event's data) to the next state, and `Step` dispatches an
    `Event` to its handler. Renderer calls, DOM writes and notifications that
    the handlers also make are not part of the state and are not modelled.

    `Math.hypot` and `Math.atan2` are not computed: a two-finger reading
    carries the distance and angle the browser computed for it. */
module GestureEngine {
  import opened Wrappers

  /** `Math.PI`: the double nearest to pi, written as its shortest decimal. */
  const PI: real := 3.141592653589793

  /** Object displacement per pixel of one-finger or mouse drag. */
  const MoveSensitivity: real := 0.01
  /** Object rotation per pixel of two-finger centre drift. */
  const RotationSensitivity: real := 0.02
  /** Fraction of the two-finger twist angle applied to rotation about z. */
  const TwistGain: real := 0.8
  /** Bounds a pinch clamps the object scale to. */
  const MinScale: real := 0.5
  const MaxScale: real := 3.0

  type NonNeg = r: real | 0.0 <= r

  datatype Point = Point(x: real, y: real)
  datatype Vec3 = Vec3(x: real, y: real, z: real)

  /** A device orientation reading in degrees. */
  datatype Orientation = Orientation(alpha: real, beta: real, gamma: real)

  /** The first two entries of `e.touches`, together with
      `Math.hypot(second - first)` and `Math.atan2(second - first)`. */
  datatype Pair = Pair(first: Point, second: Point, distance: NonNeg, angle: real)

  /** What a touch event's `touches` list looks like to the handlers: exactly
      one point, exactly two points, or any other length. */
  datatype Touches = One(touch: Point) | Two(pair: Pair) | Other

  /** `lastTouch`: the previous pointer position, the previous pinch distance
      and, between a two-finger start and the next touch end, the previous
      pinch angle and centre (`None` is JavaScript's `undefined`). */
  datatype LastTouch = LastTouch(
    x: real, y: real,
    scale: NonNeg,
    angle: Option<real>,
    centerX: Option<real>, centerY: Option<real>)

  /** The engine's module-level variables that the gesture and placement
      handlers read or write. */
  datatype State = State(
    deviceOrientation: Orientation,
    objectPlaced: bool,
    objectPosition: Vec3,
    initialOrientation: Option<Orientation>,
    objectScale: real,
    objectRotation: Vec3,
    isDragging: bool,
    lastTouch: LastTouch,
    isScaling: bool)

  /** The inputs that reach the engine: canvas touch and mouse events,
      device orientation events (a reading JavaScript gives as `null` is
      `None`), and the public `placeObject`, `updateScale` and `resetObject`
      calls. */
  datatype Event =
    | TouchStart(touches: Touches)
    | TouchMove(touches: Touches)
    | TouchEnd
    | MouseDown(at: Point)
    | MouseMove(at: Point)
    | MouseUp
    | DeviceOrientation(alpha: Option<real>, beta: Option<real>, gamma: Option<real>)
    | PlaceObject
    | UpdateScale(value: real)
    | ResetObject

  const DefaultPosition: Vec3 := Vec3(0.0, -1.0, -3.0)
  const ZeroRotation: Vec3 := Vec3(0.0, 0.0, 0.0)

  /** The values the module-level variables are declared with. */
  const Initial: State := State(
    Orientation(0.0, 0.0, 0.0),
    false,
    DefaultPosition,
    None,
    1.0,
    ZeroRotation,
    false,
    LastTouch(0.0, 0.0, 0.0, None, None, None),
    false)

  /** The part of the state the renderer draws: position, scale, rotation. */
  predicate SameTransform(s: State, t: State) {
    && s.objectPosition == t.objectPosition
    && s.objectScale == t.objectScale
    && s.objectRotation == t.objectRotation
  }

  /** The placement part of the state: the flag, the device orientation and
      the reference orientation captured at placement. */
  predicate SamePlacement(s: State, t: State) {
    && s.objectPlaced == t.objectPlaced
    && s.deviceOrientation == t.deviceOrientation
    && s.initialOrientation == t.initialOrientation
  }

  /** `Math.max(0.5, Math.min(3.0, v))`. */
  function Clamp(v: real): (r: real)
    ensures MinScale <= r <= MaxScale
    ensures MinScale <= v <= MaxScale ==> r == v
    ensures v < MinScale ==> r == MinScale
    ensures MaxScale < v ==> r == MaxScale
  {
    var upper := if MaxScale < v then MaxScale else v;
    if upper < MinScale then MinScale else upper
  }

  /** The scale after a pinch step: the clamp of
      `scale * (current / last)`. A recorded distance of 0 makes the quotient
      an IEEE infinity, which the clamp turns into one of its bounds; the
      cases where the source computes NaN (0/0, or 0 times infinity) keep the
      scale, since a real has no NaN. */
  function PinchScale(scale: real, last: NonNeg, current: NonNeg): (r: real)
    ensures 0.0 < last ==> MinScale <= r <= MaxScale
    ensures 0.0 < last && MinScale <= scale * (current / last) <= MaxScale ==>
              r == scale * (current / last)
    ensures 0.0 < last && MaxScale < scale * (current / last) ==> r == MaxScale
    ensures 0.0 < last && scale * (current / last) < MinScale ==> r == MinScale
    ensures 0.0 < last && current == last ==> r == Clamp(scale)
    ensures last == 0.0 && 0.0 < current && 0.0 < scale ==> r == MaxScale
    ensures last == 0.0 && 0.0 < current && scale < 0.0 ==> r == MinScale
  {
    if 0.0 < last then
      assert current == last ==> scale * (current / last) == scale;
      Clamp(scale * (current / last))
    else if 0.0 < current && 0.0 < scale then MaxScale
    else if 0.0 < current && scale < 0.0 then MinScale
    else scale
  }

  /** The twist angle difference after the two sequential corrections: minus
      2*PI when above PI, then plus 2*PI when below -PI. */
  function Wrap(raw: real): (r: real)
    ensures -3.0 * PI <= raw <= 3.0 * PI ==> -PI <= r <= PI
    ensures r == raw || r == raw - 2.0 * PI || r == raw + 2.0 * PI
    ensures -PI <= raw <= PI ==> r == raw
  {
    var d := if raw > PI then raw - 2.0 * PI else raw;
    if d < -PI then d + 2.0 * PI else d
  }

  /** The midpoint of the two touch points. */
  function Center(pair: Pair): (c: Point)
    ensures c.x - pair.first.x == pair.second.x - c.x
    ensures c.y - pair.first.y == pair.second.y - c.y
  {
    Point((pair.first.x + pair.second.x) / 2.0, (pair.first.y + pair.second.y) / 2.0)
  }

  /** One-finger or mouse drag to `p`: the object follows the pointer, with
      screen y inverted, and `p` becomes the last pointer position. */
  function Pan(s: State, p: Point): (r: State)
    ensures r.objectPosition.x - s.objectPosition.x == (p.x - s.lastTouch.x) * MoveSensitivity
    ensures s.objectPosition.y - r.objectPosition.y == (p.y - s.lastTouch.y) * MoveSensitivity
    ensures r.objectPosition.z == s.objectPosition.z
    ensures r.objectScale == s.objectScale && r.objectRotation == s.objectRotation
    ensures r.lastTouch == s.lastTouch.(x := p.x, y := p.y)
    ensures SamePlacement(s, r)
    ensures r.isDragging == s.isDragging && r.isScaling == s.isScaling
  {
    var dx := p.x - s.lastTouch.x;
    var dy := p.y - s.lastTouch.y;
    var pos := s.objectPosition;
    s.(objectPosition := pos.(x := pos.x + dx * MoveSensitivity, y := pos.y - dy * MoveSensitivity),
       lastTouch := s.lastTouch.(x := p.x, y := p.y))
  }

  /** `handleTouchStart`. */
  function HandleTouchStart(s: State, t: Touches): (r: State)
    ensures !s.objectPlaced ==> r == s
    ensures s.objectPlaced ==> r.isDragging
    ensures SameTransform(s, r) && SamePlacement(s, r)
    ensures t.One? && s.objectPlaced ==>
              r.lastTouch == s.lastTouch.(x := t.touch.x, y := t.touch.y) && r.isScaling == s.isScaling
    ensures t.Two? && s.objectPlaced ==>
              && r.isScaling
              && r.lastTouch.x == s.lastTouch.x && r.lastTouch.y == s.lastTouch.y
              && r.lastTouch.scale == t.pair.distance
              && r.lastTouch.angle == Some(t.pair.angle)
              && r.lastTouch.centerX == Some(Center(t.pair).x)
              && r.lastTouch.centerY == Some(Center(t.pair).y)
    ensures t.Other? && s.objectPlaced ==> r == s.(isDragging := true)
  {
    if !s.objectPlaced then s
    else
      var dragging := s.(isDragging := true);
      match t
      case One(p) => dragging.(lastTouch := s.lastTouch.(x := p.x, y := p.y))
      case Two(pair) =>
        var c := Center(pair);
        dragging.(isScaling := true,
                  lastTouch := s.lastTouch.(scale := pair.distance, centerX := Some(c.x),
                                            centerY := Some(c.y), angle := Some(pair.angle)))
      case Other => dragging
  }

  /** Centre drift and twist of a two-finger move whose previous centre is
      known: drift turns the object about y and x, twist (when a previous
      angle is known) about z, and the current angle is recorded. */
  function Turn(s: State, c: Point, angle: real): (r: State)
    requires s.lastTouch.centerX.Some? && s.lastTouch.centerY.Some?
    ensures r.objectRotation.y - s.objectRotation.y == (c.x - s.lastTouch.centerX.value) * RotationSensitivity
    ensures r.objectRotation.x - s.objectRotation.x == (c.y - s.lastTouch.centerY.value) * RotationSensitivity
    ensures s.lastTouch.angle.Some? ==>
              r.objectRotation.z - s.objectRotation.z == Wrap(angle - s.lastTouch.angle.value) * TwistGain
    ensures s.lastTouch.angle.None? ==> r.objectRotation.z == s.objectRotation.z
    ensures r.lastTouch == s.lastTouch.(angle := Some(angle))
    ensures r == s.(objectRotation := r.objectRotation, lastTouch := r.lastTouch)
  {
    var rot := s.objectRotation;
    var last := s.lastTouch;
    var drifted := rot.(y := rot.y + (c.x - last.centerX.value) * RotationSensitivity,
                        x := rot.x + (c.y - last.centerY.value) * RotationSensitivity);
    var twisted :=
      if last.angle.Some? then drifted.(z := drifted.z + Wrap(angle - last.angle.value) * TwistGain)
      else drifted;
    s.(objectRotation := twisted, lastTouch := last.(angle := Some(angle)))
  }

  /** The two-finger branch of `handleTouchMove`. */
  function PinchMove(s: State, pair: Pair): (r: State)
    ensures r.objectPosition == s.objectPosition
    ensures SamePlacement(s, r)
    ensures r.isDragging == s.isDragging && r.isScaling == s.isScaling
    ensures r.lastTouch.x == s.lastTouch.x && r.lastTouch.y == s.lastTouch.y
    ensures s.isScaling ==>
              r.objectScale == PinchScale(s.objectScale, s.lastTouch.scale, pair.distance)
              && r.lastTouch.scale == pair.distance
    ensures !s.isScaling ==> r.objectScale == s.objectScale && r.lastTouch.scale == s.lastTouch.scale
    ensures r.lastTouch.centerX == Some(Center(pair).x) && r.lastTouch.centerY == Some(Center(pair).y)
  {
    var c := Center(pair);
    var last := s.lastTouch;
    var scaled :=
      if s.isScaling then
        s.(objectScale := PinchScale(s.objectScale, last.scale, pair.distance),
           lastTouch := last.(scale := pair.distance))
      else s;
    var turned :=
      if last.centerX.Some? && last.centerY.Some? then Turn(scaled, c, pair.angle) else scaled;
    turned.(lastTouch := turned.lastTouch.(centerX := Some(c.x), centerY := Some(c.y)))
  }

  /** `handleTouchMove`. */
  function HandleTouchMove(s: State, t: Touches): (r: State)
    ensures !s.objectPlaced || !s.isDragging ==> r == s
    ensures SamePlacement(s, r)
    ensures r.isDragging == s.isDragging && r.isScaling == s.isScaling
    ensures t.One? && s.isScaling ==> r == s
    ensures t.Other? ==> r == s
  {
    if !s.objectPlaced || !s.isDragging then s
    else
      match t
      case One(p) => if !s.isScaling then Pan(s, p) else s
      case Two(pair) => PinchMove(s, pair)
      case Other => s
  }

  /** `handleTouchEnd`: ends every gesture and forgets the pinch angle and
      centre. */
  function HandleTouchEnd(s: State): (r: State)
    ensures !r.isDragging && !r.isScaling
    ensures r.lastTouch.angle.None? && r.lastTouch.centerX.None? && r.lastTouch.centerY.None?
    ensures r.lastTouch.x == s.lastTouch.x && r.lastTouch.y == s.lastTouch.y
    ensures r.lastTouch.scale == s.lastTouch.scale
    ensures SameTransform(s, r) && SamePlacement(s, r)
  {
    s.(isDragging := false, isScaling := false,
       lastTouch := s.lastTouch.(angle := None, centerX := None, centerY := None))
  }

  /** `handleMouseStart`. */
  function HandleMouseStart(s: State, p: Point): (r: State)
    ensures !s.objectPlaced ==> r == s
    ensures s.objectPlaced ==> r.isDragging && r.lastTouch == s.lastTouch.(x := p.x, y := p.y)
    ensures SameTransform(s, r) && SamePlacement(s, r) && r.isScaling == s.isScaling
  {
    if !s.objectPlaced then s
    else s.(isDragging := true, lastTouch := s.lastTouch.(x := p.x, y := p.y))
  }

  /** `handleMouseMove`: a drag while the button is down. */
  function HandleMouseMove(s: State, p: Point): (r: State)
    ensures !s.objectPlaced || !s.isDragging ==> r == s
    ensures SamePlacement(s, r)
    ensures r.isDragging == s.isDragging && r.isScaling == s.isScaling
  {
    if !s.objectPlaced || !s.isDragging then s else Pan(s, p)
  }

  /** `handleMouseEnd`. */
  function HandleMouseEnd(s: State): (r: State)
    ensures !r.isDragging
    ensures r == s.(isDragging := false)
  {
    s.(isDragging := false)
  }

  /** `event.alpha || 0`: a missing reading counts as 0. */
  function Reading(v: Option<real>): (r: real)
    ensures v.None? ==> r == 0.0
    ensures v.Some? ==> r == v.value
  {
    v.GetOr(0.0)
  }

  /** `handleOrientation`: stores the normalised reading and, the first time
      one arrives while the object is placed without a reference, captures it
      as the reference orientation. */
  function HandleOrientation(s: State, alpha: Option<real>, beta: Option<real>, gamma: Option<real>): (r: State)
    ensures r.deviceOrientation == Orientation(Reading(alpha), Reading(beta), Reading(gamma))
    ensures s.initialOrientation.Some? ==> r.initialOrientation == s.initialOrientation
    ensures !s.objectPlaced ==> r.initialOrientation == s.initialOrientation
    ensures s.initialOrientation.None? && s.objectPlaced ==>
              r.initialOrientation == Some(r.deviceOrientation)
    ensures r.objectPlaced == s.objectPlaced && SameTransform(s, r)
    ensures r == s.(deviceOrientation := r.deviceOrientation, initialOrientation := r.initialOrientation)
  {
    var o := Orientation(Reading(alpha), Reading(beta), Reading(gamma));
    var sampled := s.(deviceOrientation := o);
    if sampled.initialOrientation.None? && sampled.objectPlaced then
      sampled.(initialOrientation := Some(o))
    else sampled
  }

  /** The state effect of the public `placeObject`: the object is placed and
      the current orientation becomes the reference, even when one was
      captured before. */
  function Place(s: State): (r: State)
    ensures r.objectPlaced
    ensures r.initialOrientation == Some(s.deviceOrientation)
    ensures r == s.(objectPlaced := true, initialOrientation := r.initialOrientation)
  {
    s.(objectPlaced := true, initialOrientation := Some(s.deviceOrientation))
  }

  /** The state effect of the public `updateScale`: no clamp. */
  function SetScale(s: State, value: real): (r: State)
    ensures r.objectScale == value
    ensures r == s.(objectScale := value)
  {
    s.(objectScale := value)
  }

  /** The state effect of the public `resetObject`. Gesture flags and the last
      touch are left as they were. */
  function Reset(s: State): (r: State)
    ensures !r.objectPlaced && r.initialOrientation.None?
    ensures SameTransform(r, Initial)
    ensures r.deviceOrientation == s.deviceOrientation
    ensures r.isDragging == s.isDragging && r.isScaling == s.isScaling && r.lastTouch == s.lastTouch
  {
    s.(objectPlaced := false, initialOrientation := None, objectScale := 1.0,
       objectRotation := ZeroRotation, objectPosition := DefaultPosition)
  }

  /** One event, handled to completion. Only placement and reset change the
      placed flag, only moves, the scale setter and reset change the
      transform, and only orientation events change the device orientation. */
  function Step(s: State, e: Event): (r: State)
    ensures r.objectPlaced != s.objectPlaced ==> e.PlaceObject? || e.ResetObject?
    ensures !SameTransform(s, r) ==> e.TouchMove? || e.MouseMove? || e.UpdateScale? || e.ResetObject?
    ensures r.deviceOrientation != s.deviceOrientation ==> e.DeviceOrientation?
  {
    match e
    case TouchStart(t) => HandleTouchStart(s, t)
    case TouchMove(t) => HandleTouchMove(s, t)
    case TouchEnd => HandleTouchEnd(s)
    case MouseDown(p) => HandleMouseStart(s, p)
    case MouseMove(p) => HandleMouseMove(s, p)
    case MouseUp => HandleMouseEnd(s)
    case DeviceOrientation(a, b, g) => HandleOrientation(s, a, b, g)
    case PlaceObject => Place(s)
    case UpdateScale(v) => SetScale(s, v)
    case ResetObject => Reset(s)
  }

  /** Events handled in arrival order. */
  function Run(s: State, events: seq<Event>): State
    decreases |events|
  {
    if |events| == 0 then s else Run(Step(s, events[0]), events[1..])
  }

  /** The guard and first step of `updateCameraFromOrientation`: with a
      reference orientation and tracking on, the change of orientation since
      the reference, in radians; otherwise no camera update. */
  function CameraAngles(s: State, isTracking: bool): (r: Option<Orientation>)
    ensures r.Some? <==> s.initialOrientation.Some? && isTracking
    ensures r.Some? && s.deviceOrientation == s.initialOrientation.value ==>
              r.value == Orientation(0.0, 0.0, 0.0)
  {
    if s.initialOrientation.None? || !isTracking then None
    else
      var d := s.deviceOrientation;
      var i := s.initialOrientation.value;
      Some(Orientation((d.alpha - i.alpha) * PI / 180.0,
                       (d.beta - i.beta) * PI / 180.0,
                       (d.gamma - i.gamma) * PI / 180.0))
  }
}

=== FILE: gesture_properties.dfy ===
/** Properties of the gesture-and-placement state machine: what one event
    does to the state, and what holds over a whole stream of events. */
module GestureProperties {
  import opened Wrappers
  import opened GestureEngine

  /** Events the handlers gate on `objectPlaced`. */
  predicate IsGesture(e: Event) {
    e.TouchStart? || e.TouchMove? || e.MouseDown? || e.MouseMove?
  }

  /** Events the handlers gate on `isDragging`. */
  predicate IsMove(e: Event) {
    e.TouchMove? || e.MouseMove?
  }

  /** A one-finger touch move or a mouse move. */
  predicate IsDrag(e: Event) {
    e.MouseMove? || (e.TouchMove? && e.touches.One?)
  }

  function DragPoint(e: Event): Point
    requires IsDrag(e)
  {
    if e.MouseMove? then e.at else e.touches.touch
  }

  /** A two-finger touch move. */
  predicate IsPinchMove(e: Event) {
    e.TouchMove? && e.touches.Two?
  }

  function PinchCentre(e: Event): Point
    requires IsPinchMove(e)
  {
    Center(e.touches.pair)
  }

  /** Events other than the two public calls that set or clear the
      reference orientation. */
  predicate KeepsAnchor(e: Event) {
    !e.PlaceObject? && !e.ResetObject?
  }

  predicate ScaleInRange(s: State) {
    MinScale <= s.objectScale <= MaxScale
  }

  /** Events that cannot take the scale out of range: everything except a
      direct `updateScale` with an out-of-range value, and a two-finger move
      with both touches on one point (after a recorded distance of 0 the
      quotient is 0/0 and the scale becomes NaN). */
  predicate KeepsScaleInRange(e: Event) {
    && (e.UpdateScale? ==> MinScale <= e.value <= MaxScale)
    && (e.TouchMove? && e.touches.Two? ==> 0.0 < e.touches.pair.distance)
  }

  /** Facts the handlers maintain about the optional fields: the two centre
      coordinates are defined together, an angle is only recorded alongside
      a centre, and a reference orientation exists exactly while the object
      is placed (placing sets both, resetting clears both). */
  predicate Coherent(s: State) {
    && (s.lastTouch.centerX.Some? <==> s.lastTouch.centerY.Some?)
    && (s.lastTouch.angle.Some? ==> s.lastTouch.centerX.Some?)
    && (s.initialOrientation.Some? <==> s.objectPlaced)
  }

  // ---------------------------------------------------------------- gating

  /** While nothing is placed, touch and mouse starts and moves change
      nothing at all. */
  lemma GestureIgnoredWhileUnplaced(s: State, e: Event)
    requires !s.objectPlaced && IsGesture(e)
    ensures Step(s, e) == s
  {
  }

  /** The same for any stream of such events. */
  lemma {:induction false} GesturesIgnoredWhileUnplaced(s: State, events: seq<Event>)
    requires !s.objectPlaced
    requires forall i :: 0 <= i < |events| ==> IsGesture(events[i])
    ensures Run(s, events) == s
    decreases |events|
  {
    if |events| > 0 {
      GestureIgnoredWhileUnplaced(s, events[0]);
      GesturesIgnoredWhileUnplaced(s, events[1..]);
    }
  }

  /** Without a drag in progress, touch and mouse moves change nothing. */
  lemma {:induction false} MovesIgnoredWhileNotDragging(s: State, events: seq<Event>)
    requires !s.isDragging
    requires forall i :: 0 <= i < |events| ==> IsMove(events[i])
    ensures Run(s, events) == s
    decreases |events|
  {
    if |events| > 0 {
      assert Step(s, events[0]) == s;
      MovesIgnoredWhileNotDragging(s, events[1..]);
    }
  }

  // ------------------------------------------------------------------- pan

  /** A one-finger move outside a pinch moves the object by the finger's
      displacement times 0.01 (y inverted) and nothing else of the transform. */
  lemma OneFingerMovePans(s: State, p: Point)
    requires s.objectPlaced && s.isDragging && !s.isScaling
    ensures var r := Step(s, TouchMove(One(p)));
      && r.objectPosition.x == s.objectPosition.x + (p.x - s.lastTouch.x) * MoveSensitivity
      && r.objectPosition.y == s.objectPosition.y - (p.y - s.lastTouch.y) * MoveSensitivity
      && r.objectPosition.z == s.objectPosition.z
      && r.objectScale == s.objectScale && r.objectRotation == s.objectRotation
      && r.lastTouch == s.lastTouch.(x := p.x, y := p.y)
  {
  }

  /** A mouse move during a drag pans exactly as a one-finger move does. */
  lemma MouseMovePans(s: State, p: Point)
    requires s.objectPlaced && s.isDragging
    ensures var r := Step(s, MouseMove(p));
      && r.objectPosition.x == s.objectPosition.x + (p.x - s.lastTouch.x) * MoveSensitivity
      && r.objectPosition.y == s.objectPosition.y - (p.y - s.lastTouch.y) * MoveSensitivity
      && r.objectPosition.z == s.objectPosition.z
      && r.objectScale == s.objectScale && r.objectRotation == s.objectRotation
      && r.lastTouch == s.lastTouch.(x := p.x, y := p.y)
  {
  }

  /** A drag is path independent: after any stream of drag moves the object
      has moved by the displacement from the drag's starting point to its
      last point, whatever the intermediate points were. */
  lemma {:induction false} DragFollowsPointer(s: State, events: seq<Event>)
    requires s.objectPlaced && s.isDragging && !s.isScaling
    requires |events| > 0
    requires forall i :: 0 <= i < |events| ==> IsDrag(events[i])
    ensures var r := Run(s, events);
      var p := DragPoint(events[|events| - 1]);
      && r.objectPosition.x == s.objectPosition.x + (p.x - s.lastTouch.x) * MoveSensitivity
      && r.objectPosition.y == s.objectPosition.y - (p.y - s.lastTouch.y) * MoveSensitivity
      && r.objectPosition.z == s.objectPosition.z
      && r.objectScale == s.objectScale && r.objectRotation == s.objectRotation
      && r.lastTouch.x == p.x && r.lastTouch.y == p.y
    decreases |events|
  {
    var s1 := Step(s, events[0]);
    assert s1 == Pan(s, DragPoint(events[0]));
    if |events| == 1 {
      assert Run(s1, events[1..]) == s1;
    } else {
      DragFollowsPointer(s1, events[1..]);
      assert events[1..][|events[1..]| - 1] == events[|events| - 1];
    }
  }

  // ----------------------------------------------------------------- pinch

  /** A pinch move with a recorded distance above 0 leaves the scale in
      [0.5, 3.0], records the new distance, and does not move the object. */
  lemma PinchScaleClamped(s: State, pair: Pair)
    requires s.objectPlaced && s.isDragging && s.isScaling
    requires 0.0 < s.lastTouch.scale
    ensures var r := Step(s, TouchMove(Two(pair)));
      && MinScale <= r.objectScale <= MaxScale
      && r.lastTouch.scale == pair.distance
      && r.objectPosition == s.objectPosition
  {
  }

  /** Quotients of successive distances multiply to the quotient of the
      first and last. */
  lemma RatiosTelescope(a: real, b: real, c: real)
    requires 0.0 < a && 0.0 < b
    ensures (b / a) * (c / b) == c / a
  {
    var q1 := b / a;
    var q2 := c / b;
    assert q1 * a == b;
    assert q2 * b == c;
    calc {
      (q1 * q2) * a;
      q2 * (q1 * a);
      q2 * b;
      c;
    }
  }

  lemma ScaledRatiosTelescope(scale: real, a: real, b: real, c: real)
    requires 0.0 < a && 0.0 < b
    ensures scale * (b / a) * (c / b) == scale * (c / a)
  {
    RatiosTelescope(a, b, c);
    assert scale * (b / a) * (c / b) == scale * ((b / a) * (c / b));
  }

  /** Two unclamped pinch steps scale exactly as one step from the first
      distance to the last: the scale follows the ratio of finger distances. */
  lemma PinchStepsCompose(scale: real, a: NonNeg, b: NonNeg, c: NonNeg)
    requires 0.0 < a && 0.0 < b
    requires MinScale <= scale * (b / a) <= MaxScale
    requires MinScale <= scale * (b / a) * (c / b) <= MaxScale
    ensures PinchScale(PinchScale(scale, a, b), b, c) == PinchScale(scale, a, c)
  {
    var mid := scale * (b / a);
    var product := mid * (c / b);
    PinchUnclamped(scale, a, b, mid);
    PinchUnclamped(mid, b, c, product);
    ScaledRatiosTelescope(scale, a, b, c);
    PinchUnclamped(scale, a, c, product);
  }

  lemma PinchUnclamped(scale: real, last: NonNeg, current: NonNeg, product: real)
    requires 0.0 < last && product == scale * (current / last)
    requires MinScale <= product <= MaxScale
    ensures PinchScale(scale, last, current) == product
  {
  }

  /** From distance 100 to 150 a scale of 1.0 becomes 1.5, while 2.5
      saturates at 3.0. */
  lemma PinchExample()
    ensures PinchScale(1.0, 100.0, 150.0) == 1.5
    ensures PinchScale(2.5, 100.0, 150.0) == MaxScale
  {
  }

  // ------------------------------------------------------- drift and twist

  /** Two-finger centre drift turns the object about y and x by 0.02 per
      pixel, never moves it, and the current centre is always recorded. */
  lemma CentreDriftRotates(s: State, pair: Pair)
    requires s.objectPlaced && s.isDragging
    ensures var r := Step(s, TouchMove(Two(pair)));
      var c := Center(pair);
      && r.objectPosition == s.objectPosition
      && r.lastTouch.centerX == Some(c.x) && r.lastTouch.centerY == Some(c.y)
      && (s.lastTouch.centerX.Some? && s.lastTouch.centerY.Some? ==>
            && r.objectRotation.y == s.objectRotation.y + (c.x - s.lastTouch.centerX.value) * RotationSensitivity
            && r.objectRotation.x == s.objectRotation.x + (c.y - s.lastTouch.centerY.value) * RotationSensitivity)
      && (s.lastTouch.centerX.None? || s.lastTouch.centerY.None? ==>
            r.objectRotation == s.objectRotation && r.lastTouch.angle == s.lastTouch.angle)
  {
  }

  /** The twist: with a previous angle, rotation about z grows by exactly 0.8
      times the wrapped angle difference; without one it stays, and the
      angle is recorded either way. */
  lemma TwistRotates(s: State, pair: Pair)
    requires s.objectPlaced && s.isDragging
    requires s.lastTouch.centerX.Some? && s.lastTouch.centerY.Some?
    ensures var r := Step(s, TouchMove(Two(pair)));
      && r.lastTouch.angle == Some(pair.angle)
      && (s.lastTouch.angle.Some? ==>
            r.objectRotation.z == s.objectRotation.z + Wrap(pair.angle - s.lastTouch.angle.value) * TwistGain)
      && (s.lastTouch.angle.None? ==> r.objectRotation.z == s.objectRotation.z)
  {
  }

  /** For two angles from `Math.atan2` (both in [-PI, PI]) the wrapped
      difference is in [-PI, PI], so one twist step turns the object by at
      most 0.8 * PI. */
  lemma TwistBounded(last: real, current: real)
    requires -PI <= last <= PI && -PI <= current <= PI
    ensures -PI <= Wrap(current - last) <= PI
    ensures -TwistGain * PI <= Wrap(current - last) * TwistGain <= TwistGain * PI
  {
  }

  /** The centre drift of a two-finger gesture is path independent: over
      any stream of two-finger moves the rotation about y and x is set by the
      first and the last centre alone, and the object never moves. */
  lemma {:induction false} DriftFollowsCentre(s: State, events: seq<Event>)
    requires s.objectPlaced && s.isDragging
    requires s.lastTouch.centerX.Some? && s.lastTouch.centerY.Some?
    requires |events| > 0
    requires forall i :: 0 <= i < |events| ==> IsPinchMove(events[i])
    ensures var r := Run(s, events);
      var c := PinchCentre(events[|events| - 1]);
      && r.objectRotation.y == s.objectRotation.y + (c.x - s.lastTouch.centerX.value) * RotationSensitivity
      && r.objectRotation.x == s.objectRotation.x + (c.y - s.lastTouch.centerY.value) * RotationSensitivity
      && r.objectPosition == s.objectPosition
      && r.lastTouch.centerX == Some(c.x) && r.lastTouch.centerY == Some(c.y)
    decreases |events|
  {
    CentreDriftRotates(s, events[0].touches.pair);
    var s1 := Step(s, events[0]);
    if |events| == 1 {
      assert Run(s1, events[1..]) == s1;
    } else {
      DriftFollowsCentre(s1, events[1..]);
      assert events[1..][|events[1..]| - 1] == events[|events| - 1];
    }
  }

  // ------------------------------------------------------------- touch end

  /** Touch end ends the gesture and forgets angle and centre, without
      touching the transform; after it, moves are ignored until a new start. */
  lemma {:induction false} TouchEndStopsGesture(s: State, events: seq<Event>)
    requires forall i :: 0 <= i < |events| ==> IsMove(events[i])
    ensures var ended := Step(s, TouchEnd);
      && !ended.isDragging && !ended.isScaling
      && ended.lastTouch.angle.None? && ended.lastTouch.centerX.None? && ended.lastTouch.centerY.None?
      && SameTransform(s, ended)
      && Run(ended, events) == ended
  {
    MovesIgnoredWhileNotDragging(Step(s, TouchEnd), events);
  }

  /** Mouse-up ends the drag without touching the transform, the pinch
      flag or the last touch; after it, moves are ignored until a new start. */
  lemma {:induction false} MouseUpStopsDrag(s: State, events: seq<Event>)
    requires forall i :: 0 <= i < |events| ==> IsMove(events[i])
    ensures var ended := Step(s, MouseUp);
      && !ended.isDragging && ended.isScaling == s.isScaling
      && ended.lastTouch == s.lastTouch
      && SameTransform(s, ended)
      && Run(ended, events) == ended
  {
    MovesIgnoredWhileNotDragging(Step(s, MouseUp), events);
  }

  // -------------------------------------------------- reset and placement

  /** Reset restores the default transform and unplaces the object whatever
      happened before, and gestures then keep it that way until the next
      placement. */
  lemma ResetRestoresDefaults(s: State, events: seq<Event>)
    requires forall i :: 0 <= i < |events| ==> IsGesture(events[i])
    ensures var r := Run(Step(s, ResetObject), events);
      && !r.objectPlaced && r.initialOrientation.None?
      && r.objectScale == 1.0
      && r.objectRotation == Vec3(0.0, 0.0, 0.0)
      && r.objectPosition == Vec3(0.0, -1.0, -3.0)
  {
    GesturesIgnoredWhileUnplaced(Step(s, ResetObject), events);
  }

  /** Placing snapshots the current orientation, and the camera then starts
      with no orientation change relative to it. */
  lemma PlaceSnapshotsOrientation(s: State)
    ensures var r := Step(s, PlaceObject);
      && r.objectPlaced && r.initialOrientation == Some(s.deviceOrientation)
      && SameTransform(s, r)
      && CameraAngles(r, true) == Some(Orientation(0.0, 0.0, 0.0))
  {
  }

  /** An orientation sample captures a reference only when none exists and
      the object is placed; it never replaces an existing one. */
  lemma OrientationCapturesOnce(s: State, alpha: Option<real>, beta: Option<real>, gamma: Option<real>)
    ensures var r := Step(s, DeviceOrientation(alpha, beta, gamma));
      && r.deviceOrientation == Orientation(alpha.GetOr(0.0), beta.GetOr(0.0), gamma.GetOr(0.0))
      && (s.initialOrientation.Some? ==> r.initialOrientation == s.initialOrientation)
      && (s.initialOrientation.None? ==>
            (r.initialOrientation.Some? <==> s.objectPlaced)
            && (s.objectPlaced ==> r.initialOrientation == Some(r.deviceOrientation)))
  {
  }

  /** Once captured, the reference orientation survives every event stream
      that contains no placement or reset call. */
  lemma {:induction false} AnchorCapturedAtMostOnce(s: State, events: seq<Event>)
    requires s.initialOrientation.Some?
    requires forall i :: 0 <= i < |events| ==> KeepsAnchor(events[i])
    ensures Run(s, events).initialOrientation == s.initialOrientation
    decreases |events|
  {
    if |events| > 0 {
      var s1 := Step(s, events[0]);
      assert s1.initialOrientation == s.initialOrientation;
      AnchorCapturedAtMostOnce(s1, events[1..]);
    }
  }

  /** The reference orientation of a placement is the orientation at the
      moment of placing, unaffected by later samples and gestures. */
  lemma PlacementAnchorIsStable(s: State, events: seq<Event>)
    requires forall i :: 0 <= i < |events| ==> KeepsAnchor(events[i])
    ensures Run(Step(s, PlaceObject), events).initialOrientation == Some(s.deviceOrientation)
  {
    AnchorCapturedAtMostOnce(Step(s, PlaceObject), events);
  }

  // ------------------------------------------------------------ invariants

  /** Every event keeps the optional fields coherent. */
  lemma StepPreservesCoherent(s: State, e: Event)
    requires Coherent(s)
    ensures Coherent(Step(s, e))
  {
  }

  /** Every event stream keeps a coherent state coherent. */
  lemma {:induction false} RunPreservesCoherent(s: State, events: seq<Event>)
    requires Coherent(s)
    ensures Coherent(Run(s, events))
    decreases |events|
  {
    if |events| > 0 {
      StepPreservesCoherent(s, events[0]);
      RunPreservesCoherent(Step(s, events[0]), events[1..]);
    }
  }

  /** From the declared initial values, every event stream keeps the optional
      fields coherent. */
  lemma InitialCoherent(events: seq<Event>)
    ensures Coherent(Run(Initial, events))
  {
    RunPreservesCoherent(Initial, events);
  }

  /** From the declared initial values an orientation sample never changes
      the reference: the capture in the orientation handler needs a placed
      object without a reference, and no reachable state is one. */
  lemma OrientationNeverCaptures(events: seq<Event>, alpha: Option<real>, beta: Option<real>, gamma: Option<real>)
    ensures var s := Run(Initial, events);
      Step(s, DeviceOrientation(alpha, beta, gamma)).initialOrientation == s.initialOrientation
  {
    InitialCoherent(events);
  }

  /** Gestures, placement, orientation samples and reset keep the scale in
      [0.5, 3.0]; only a direct out-of-range `updateScale` can leave it. */
  lemma StepKeepsScaleInRange(s: State, e: Event)
    requires ScaleInRange(s) && KeepsScaleInRange(e)
    ensures ScaleInRange(Step(s, e))
  {
  }

  lemma {:induction false} RunKeepsScaleInRange(s: State, events: seq<Event>)
    requires ScaleInRange(s)
    requires forall i :: 0 <= i < |events| ==> KeepsScaleInRange(events[i])
    ensures ScaleInRange(Run(s, events))
    decreases |events|
  {
    if |events| > 0 {
      StepKeepsScaleInRange(s, events[0]);
      RunKeepsScaleInRange(Step(s, events[0]), events[1..]);
    }
  }

  /** The direct setter is not clamped: `updateScale` can store any value. */
  lemma UpdateScaleUnclamped(s: State)
    ensures Step(s, UpdateScale(5.0)).objectScale == 5.0
    ensures !ScaleInRange(Step(s, UpdateScale(5.0)))
  {
  }
}

=== FILE: parse_int.dfy ===
/** JavaScript's global `parseInt(string)` with no radix argument, as the
    ECMAScript standard defines it (ECMA-262, the `parseInt ( string, radix )`
    function of the global object): skip leading white space and line
    terminators, read an optional sign, read a `0x`/`0X` prefix as
    hexadecimal, then take the longest run of digits of that radix. No
    digits means NaN, which is `None` here. The result is an unbounded
    integer; JavaScript's `-0` is 0. */
module JsParseInt {
  import opened Wrappers

  /** StrWhiteSpaceChar: the white space and line terminator code points. */
  predicate IsStrWhiteSpace(c: char) {
    || c == '\t' || c == '\U{000B}' || c == '\U{000C}' || c == ' '
    || c == '\U{00A0}' || c == '\U{FEFF}'
    || c == '\U{1680}' || ('\U{2000}' <= c <= '\U{200A}')
    || c == '\U{202F}' || c == '\U{205F}' || c == '\U{3000}'
    || c == '\n' || c == '\r' || c == '\U{2028}' || c == '\U{2029}'
  }

  /** The value of `c` as a digit of radix up to 36 (`0`-`9`, then `a`-`z` in
      either case), or 36 when `c` is no digit at all. */
  function DigitValue(c: char): (d: nat)
    ensures d <= 36
    ensures '0' <= c <= '9' <==> d < 10
  {
    if '0' <= c <= '9' then (c as int) - ('0' as int)
    else if 'a' <= c <= 'z' then (c as int) - ('a' as int) + 10
    else if 'A' <= c <= 'Z' then (c as int) - ('A' as int) + 10
    else 36
  }

  predicate IsDigit(c: char, radix: nat) {
    DigitValue(c) < radix
  }

  predicate AllDigits(s: string, radix: nat) {
    forall i :: 0 <= i < |s| ==> IsDigit(s[i], radix)
  }

  /** `s` without its leading white space. */
  function TrimStart(s: string): (r: string)
    ensures |r| <= |s| && r == s[|s| - |r|..]
    ensures forall i :: 0 <= i < |s| - |r| ==> IsStrWhiteSpace(s[i])
    ensures |r| > 0 ==> !IsStrWhiteSpace(r[0])
    decreases |s|
  {
    if |s| > 0 && IsStrWhiteSpace(s[0]) then TrimStart(s[1..]) else s
  }

  /** The length of the longest prefix of `s` made of digits of `radix`. */
  function DigitRun(s: string, radix: nat): (n: nat)
    ensures n <= |s|
    ensures AllDigits(s[..n], radix)
    ensures n < |s| ==> !IsDigit(s[n], radix)
    decreases |s|
  {
    if |s| > 0 && IsDigit(s[0], radix) then
      var rest := DigitRun(s[1..], radix);
      assert s[..1 + rest] == [s[0]] + s[1..][..rest];
      1 + rest
    else 0
  }

  /** The number the digit string `ds` denotes in `radix`, most significant
      digit first. */
  function Value(ds: string, radix: nat): nat
    requires AllDigits(ds, radix)
    decreases |ds|
  {
    if |ds| == 0 then 0
    else
      assert AllDigits(ds[..|ds| - 1], radix);
      Value(ds[..|ds| - 1], radix) * radix + DigitValue(ds[|ds| - 1])
  }

  /** A digit string of `radix` starting `s`: its value, or `None` when `s`
      does not start with a digit. */
  function ParseRadix(s: string, radix: nat): (r: Option<int>)
    ensures r.Some? ==> 0 <= r.value
    ensures r.None? <==> |s| == 0 || !IsDigit(s[0], radix)
  {
    var n := DigitRun(s, radix);
    if n == 0 then None else Some(Value(s[..n], radix))
  }

  predicate HasHexPrefix(s: string) {
    |s| >= 2 && s[0] == '0' && (s[1] == 'x' || s[1] == 'X')
  }

  /** The unsigned part: hexadecimal after a `0x` or `0X` prefix, decimal
      otherwise. */
  function ParseUnsigned(s: string): (r: Option<int>)
    ensures r.Some? ==> 0 <= r.value
  {
    if HasHexPrefix(s) then ParseRadix(s[2..], 16) else ParseRadix(s, 10)
  }

  /** The text after the leading white space: an optional sign, then the
      unsigned part. */
  function ParseSigned(s: string): (r: Option<int>)
    ensures r.Some? && r.value < 0 ==> |s| > 0 && s[0] == '-'
  {
    if |s| > 0 && s[0] == '-' then
      match ParseUnsigned(s[1..])
      case None => None
      case Some(v) => Some(-v)
    else if |s| > 0 && s[0] == '+' then ParseUnsigned(s[1..])
    else ParseUnsigned(s)
  }

  /** `parseInt(input)`, with NaN as `None`. */
  function ParseInt(input: string): (r: Option<int>)
    ensures |input| == 0 ==> r.None?
  {
    ParseSigned(TrimStart(input))
  }

  function DigitChar(d: nat): (c: char)
    requires d < 10
    ensures DigitValue(c) == d
  {
    (('0' as int) + d) as char
  }

  /** The decimal numeral of `n`, without leading zeros. */
  function ShowNat(n: nat): (s: string)
    ensures |s| > 0
    ensures AllDigits(s, 10)
    ensures 0 < n ==> s[0] != '0'
    decreases n
  {
    if n < 10 then [DigitChar(n)] else ShowNat(n / 10) + [DigitChar(n % 10)]
  }

  /** The decimal numeral of `n`, with a leading `-` when negative. */
  function ShowInt(n: int): (s: string)
    ensures |s| > 0
    ensures n < 0 <==> s[0] == '-'
  {
    if n < 0 then "-" + ShowNat(-n) else ShowNat(n)
  }

  lemma {:induction false} ValueOfShowNat(n: nat)
    ensures Value(ShowNat(n), 10) == n
    decreases n
  {
    var s := ShowNat(n);
    if n >= 10 {
      var prefix := ShowNat(n / 10);
      assert s == prefix + [DigitChar(n % 10)];
      assert s[..|s| - 1] == prefix;
      ValueOfShowNat(n / 10);
    }
  }

  /** The digit run of a digit string followed by a non-digit is the whole
      digit string. */
  lemma {:induction false} DigitRunOfDigits(ds: string, tail: string, radix: nat)
    requires AllDigits(ds, radix)
    requires |tail| == 0 || !IsDigit(tail[0], radix)
    ensures DigitRun(ds + tail, radix) == |ds|
    decreases |ds|
  {
    if |ds| > 0 {
      assert (ds + tail)[1..] == ds[1..] + tail;
      DigitRunOfDigits(ds[1..], tail, radix);
    } else {
      assert ds + tail == tail;
    }
  }

  /** Leading white space never changes the result. */
  lemma {:induction false} WhiteSpaceIgnored(w: string, s: string)
    requires forall i :: 0 <= i < |w| ==> IsStrWhiteSpace(w[i])
    ensures ParseInt(w + s) == ParseInt(s)
    decreases |w|
  {
    TrimSkipsWhiteSpace(w, s);
  }

  lemma {:induction false} TrimSkipsWhiteSpace(w: string, s: string)
    requires forall i :: 0 <= i < |w| ==> IsStrWhiteSpace(w[i])
    ensures TrimStart(w + s) == TrimStart(s)
    decreases |w|
  {
    if |w| > 0 {
      assert (w + s)[1..] == w[1..] + s;
      TrimSkipsWhiteSpace(w[1..], s);
    } else {
      assert w + s == s;
    }
  }

  /** The unsigned part of a numeral followed by text that cannot continue
      it reads back as its number. */
  lemma ParseUnsignedShowNat(m: nat, tail: string)
    requires |tail| == 0 || !IsDigit(tail[0], 10)
    requires m == 0 && |tail| > 0 ==> tail[0] != 'x' && tail[0] != 'X'
    ensures ParseUnsigned(ShowNat(m) + tail) == Some(m)
  {
    var digits := ShowNat(m);
    var unsigned := digits + tail;
    assert !HasHexPrefix(unsigned) by {
      if |digits| >= 2 {
        assert unsigned[1] == digits[1];
        assert IsDigit(digits[1], 10);
      } else if m > 0 {
        assert unsigned[0] == digits[0];
      } else if |unsigned| >= 2 {
        assert unsigned[1] == tail[0];
      }
    }
    DigitRunOfDigits(digits, tail, 10);
    ValueOfShowNat(m);
    assert unsigned[..|digits|] == digits;
  }

  /** What decides NaN, judged on the text after its leading white space:
      blank text and text starting with anything but a digit or a sign are
      NaN, a start digit from 1 to 9 always gives a number, and only a
      leading minus gives a negative one. */
  lemma ParseIntOutcome(input: string)
    ensures var t := TrimStart(input); |t| == 0 ==> ParseInt(input).None?
    ensures var t := TrimStart(input);
      |t| > 0 && !IsDigit(t[0], 10) && t[0] != '-' && t[0] != '+' ==> ParseInt(input).None?
    ensures var t := TrimStart(input); |t| > 0 && '1' <= t[0] <= '9' ==> ParseInt(input).Some?
    ensures var t := TrimStart(input);
      ParseInt(input).Some? && ParseInt(input).value < 0 ==> |t| > 0 && t[0] == '-'
  {
    var t := TrimStart(input);
    if |t| > 0 && t[0] != '-' && t[0] != '+' {
      assert ParseInt(input) == ParseUnsigned(t);
      if !IsDigit(t[0], 10) || '1' <= t[0] <= '9' {
        assert !HasHexPrefix(t);
      }
    }
  }

  /** Text that starts with neither white space nor a sign is read as the
      unsigned part directly. */
  lemma ParseUnsignedStart(s: string)
    requires |s| > 0 && !IsStrWhiteSpace(s[0]) && s[0] != '-' && s[0] != '+'
    ensures ParseInt(s) == ParseUnsigned(s)
  {
    assert TrimStart(s) == s;
  }

  lemma ParseNegativeNumeral(m: nat, tail: string)
    requires |tail| == 0 || !IsDigit(tail[0], 10)
    requires m == 0 && |tail| > 0 ==> tail[0] != 'x' && tail[0] != 'X'
    ensures ParseInt("-" + (ShowNat(m) + tail)) == Some(-(m as int))
  {
    var unsigned := ShowNat(m) + tail;
    ParseUnsignedShowNat(m, tail);
    var s := "-" + unsigned;
    assert s[1..] == unsigned;
    assert TrimStart(s) == s;
  }

  lemma ParseNonNegativeNumeral(m: nat, tail: string)
    requires |tail| == 0 || !IsDigit(tail[0], 10)
    requires m == 0 && |tail| > 0 ==> tail[0] != 'x' && tail[0] != 'X'
    ensures ParseInt(ShowNat(m) + tail) == Some(m)
  {
    ParseUnsignedShowNat(m, tail);
    var s := ShowNat(m) + tail;
    assert IsDigit(s[0], 10) by {
      assert s[0] == ShowNat(m)[0];
    }
    ParseUnsignedStart(s);
  }

  /** Reading back a decimal numeral gives its number, also when text that
      cannot continue the numeral follows it. For 0 that excludes a
      following `x` or `X`, which would turn "0" into a hexadecimal prefix. */
  lemma ParseShowInt(n: int, tail: string)
    requires |tail| == 0 || !IsDigit(tail[0], 10)
    requires n == 0 && |tail| > 0 ==> tail[0] != 'x' && tail[0] != 'X'
    ensures ParseInt(ShowInt(n) + tail) == Some(n)
  {
    if n < 0 {
      var m: nat := -n;
      assert ShowInt(n) + tail == "-" + (ShowNat(m) + tail) by {
        assert ShowInt(n) == "-" + ShowNat(m);
      }
      ParseNegativeNumeral(m, tail);
    } else {
      assert ShowInt(n) == ShowNat(n);
      ParseNonNegativeNumeral(n, tail);
    }
  }

  /** Decimal numerals read back exactly. */
  lemma ParseShowIntRoundTrip(n: int)
    ensures ParseInt(ShowInt(n)) == Some(n)
  {
    ParseShowInt(n, "");
    assert ShowInt(n) + "" == ShowInt(n);
  }

  /** A `0x` prefix with no hexadecimal digit after it is NaN, not 0. */
  lemma HexPrefixAloneIsNaN()
    ensures ParseInt("0x").None?
  {
    ParseUnsignedStart("0x");
    assert HasHexPrefix("0x");
    assert "0x"[2..] == "";
  }

  /** After a `0x` prefix the digits are hexadecimal, in either case. */
  lemma HexDigitsRead()
    ensures ParseInt("0x1A") == Some(26)
  {
    ParseUnsignedStart("0x1A");
    assert HasHexPrefix("0x1A");
    var ds := "0x1A"[2..];
    assert ds == "1A";
    assert AllDigits(ds, 16);
    DigitRunOfDigits(ds, "", 16);
    assert ds + "" == ds;
    assert ds[..2] == ds;
    assert ds[..1] == "1";
    assert Value("1", 16) == 1 by {
      assert "1"[..0] == "";
    }
  }

  lemma ShowFortyTwo()
    ensures ShowNat(42) == "42"
  {
    assert ShowNat(4) == "4";
  }

  /** Reading stops at the first character that is no decimal digit. */
  lemma TrailingTextDropped()
    ensures ParseInt("42px") == Some(42)
  {
    ShowFortyTwo();
    ParseNonNegativeNumeral(42, "px");
    assert ShowNat(42) + "px" == "42px";
  }

  /** An exponent is not part of an integer numeral. */
  lemma ExponentNotRead()
    ensures ParseInt("1e3") == Some(1)
  {
    ParseNonNegativeNumeral(1, "e3");
    assert ShowNat(1) + "e3" == "1e3";
  }

  /** JavaScript's `-0` is the number 0. */
  lemma NegativeZeroIsZero()
    ensures ParseInt("-0") == Some(0)
  {
    ParseNegativeNumeral(0, "");
    assert "-" + (ShowNat(0) + "") == "-0";
  }

  /** The text `parseInt(null)` reads has no digits. */
  lemma NullIsNaN()
    ensures ParseInt("null").None?
  {
    ParseUnsignedStart("null");
  }
}

=== FILE: url_params.dfy ===
/** `parseURLData`: the object description read from the page's query
    string. The query is the map from parameter name to its decoded value
    that `URLSearchParams.get` consults (a missing key is `get` returning
    `null`). Each field falls back to a default through JavaScript's `||`,
    so an empty string, and a `parseInt` result of 0 or NaN, count as
    missing. */
module UrlParams {
  import opened Wrappers
  import opened JsParseInt

  type Query = map<string, string>

  /** The object record `parseURLData` returns (`objectType` is the
      JavaScript field `type`). */
  datatype ObjectData = ObjectData(
    id: string,
    objectType: string,
    frames: int,
    duration: int,
    quality: int,
    confidence: int,
    model: string,
    is3d: bool)

  const DefaultId := "demo"
  const DefaultType := "bottle"
  const DefaultFrames := 30
  const DefaultDuration := 60
  const DefaultQuality := 85
  const DefaultConfidence := 95
  const DefaultModel := ""

  /** `urlParams.get(key)`. */
  function Get(q: Query, key: string): Option<string> {
    if key in q then Some(q[key]) else None
  }

  /** `urlParams.get(key) || default` for a string field. */
  function TextParam(q: Query, key: string, default: string): (r: string)
    ensures key in q && q[key] != "" ==> r == q[key]
    ensures key !in q || q[key] == "" ==> r == default
  {
    match Get(q, key)
    case Some(v) => if v != "" then v else default
    case None => default
  }

  /** `parseInt(urlParams.get(key)) || default`; `parseInt(null)` reads the
      text "null", which has no digits. */
  function IntParam(q: Query, key: string, default: int): (r: int)
    ensures key !in q ==> r == default
    ensures key in q && ParseInt(q[key]).None? ==> r == default
    ensures key in q && ParseInt(q[key]) == Some(0) ==> r == default
    ensures key in q && ParseInt(q[key]).Some? && ParseInt(q[key]).value != 0 ==>
              r == ParseInt(q[key]).value
    ensures default != 0 ==> r != 0
  {
    var text := match Get(q, key) case Some(v) => v case None => "null";
    assert key !in q ==> ParseInt(text).None? by {
      NullIsNaN();
    }
    match ParseInt(text)
    case Some(n) => if n != 0 then n else default
    case None => default
  }

  /** Whether the raw parameter `key` is exactly `value`. */
  predicate RawIs(q: Query, key: string, value: string) {
    key in q && q[key] == value
  }

  /** `parseURLData()`. */
  function ParseURLData(q: Query): (r: ObjectData)
    ensures r.id != "" && r.objectType != ""
    ensures "id" in q && q["id"] != "" ==> r.id == q["id"]
    ensures "id" !in q || q["id"] == "" ==> r.id == DefaultId
    ensures "type" in q && q["type"] != "" ==> r.objectType == q["type"]
    ensures "type" !in q || q["type"] == "" ==> r.objectType == DefaultType
    ensures "model" in q ==> r.model == q["model"]
    ensures "model" !in q ==> r.model == DefaultModel
    ensures r.frames != 0 && r.duration != 0 && r.quality != 0 && r.confidence != 0
    ensures "frames" !in q ==> r.frames == DefaultFrames
    ensures "duration" !in q ==> r.duration == DefaultDuration
    ensures "quality" !in q ==> r.quality == DefaultQuality
    ensures "confidence" !in q ==> r.confidence == DefaultConfidence
    ensures r.is3d <==> RawIs(q, "is3d", "true") || RawIs(q, "type", "3d_model")
    ensures r.objectType == DefaultType && !RawIs(q, "is3d", "true") ==> !r.is3d
  {
    ObjectData(
      TextParam(q, "id", DefaultId),
      TextParam(q, "type", DefaultType),
      IntParam(q, "frames", DefaultFrames),
      IntParam(q, "duration", DefaultDuration),
      IntParam(q, "quality", DefaultQuality),
      IntParam(q, "confidence", DefaultConfidence),
      TextParam(q, "model", DefaultModel),
      RawIs(q, "is3d", "true") || RawIs(q, "type", "3d_model"))
  }

  /** The records `parseURLData` can return: non-empty id and type, non-zero
      numbers, and `is3d` set whenever the type is "3d_model". */
  predicate Canonical(d: ObjectData) {
    && d.id != "" && d.objectType != ""
    && d.frames != 0 && d.duration != 0 && d.quality != 0 && d.confidence != 0
    && (d.objectType == "3d_model" ==> d.is3d)
  }

  /** The query string a link would carry to describe `d`. */
  function ToQuery(d: ObjectData): Query {
    map[
      "id" := d.id,
      "type" := d.objectType,
      "frames" := ShowInt(d.frames),
      "duration" := ShowInt(d.duration),
      "quality" := ShowInt(d.quality),
      "confidence" := ShowInt(d.confidence),
      "model" := d.model,
      "is3d" := if d.is3d then "true" else "false"]
  }

  /** Every result of `parseURLData` is canonical. */
  lemma ParsedIsCanonical(q: Query)
    ensures Canonical(ParseURLData(q))
  {
  }

  lemma IntParamOfShowInt(n: int, key: string, q: Query, default: int)
    requires n != 0
    requires key in q && q[key] == ShowInt(n)
    ensures IntParam(q, key, default) == n
  {
    ParseShowIntRoundTrip(n);
  }

  lemma QueryLookups(d: ObjectData)
    ensures var q := ToQuery(d);
      && "id" in q && q["id"] == d.id
      && "type" in q && q["type"] == d.objectType
      && "model" in q && q["model"] == d.model
      && "frames" in q && q["frames"] == ShowInt(d.frames)
      && "duration" in q && q["duration"] == ShowInt(d.duration)
      && "quality" in q && q["quality"] == ShowInt(d.quality)
      && "confidence" in q && q["confidence"] == ShowInt(d.confidence)
      && (RawIs(q, "is3d", "true") <==> d.is3d)
  {
  }

  /** A canonical record survives being written to a query and read back. */
  lemma ParseToQueryRoundTrip(d: ObjectData)
    requires Canonical(d)
    ensures ParseURLData(ToQuery(d)) == d
  {
    var q := ToQuery(d);
    QueryLookups(d);
    IntParamOfShowInt(d.frames, "frames", q, DefaultFrames);
    IntParamOfShowInt(d.duration, "duration", q, DefaultDuration);
    IntParamOfShowInt(d.quality, "quality", q, DefaultQuality);
    IntParamOfShowInt(d.confidence, "confidence", q, DefaultConfidence);
    assert TextParam(q, "id", DefaultId) == d.id;
    assert TextParam(q, "type", DefaultType) == d.objectType;
    assert TextParam(q, "model", DefaultModel) == d.model;
  }

  /** Reading the query written for a parsed record gives the same record:
      the defaults are fixed points. */
  lemma ParseIsIdempotent(q: Query)
    ensures ParseURLData(ToQuery(ParseURLData(q))) == ParseURLData(q)
  {
    ParsedIsCanonical(q);
    ParseToQueryRoundTrip(ParseURLData(q));
  }

  /** An explicit 0 falls back to the default like a missing value, while a
      negative number is kept, since only 0 and NaN are falsy. */
  lemma ZeroFallsBackNegativeKept()
    ensures ParseURLData(map["frames" := "0"]).frames == DefaultFrames
    ensures ParseURLData(map["frames" := "-5"]).frames == -5
    ensures ParseURLData(map["frames" := "abc"]).frames == DefaultFrames
  {
    ParseShowIntRoundTrip(0);
    assert ShowInt(0) == "0";
    ParseShowIntRoundTrip(-5);
    assert ShowInt(-5) == "-5";
    ParseUnsignedStart("abc");
  }
}

=== FILE: wrappers.dfy ===
/** The optional value used wherever the engine keeps a field that JavaScript
    leaves `undefined` or `null`. */
module Wrappers {

  datatype Option<+T> = None | Some(value: T) {

    /** The wrapped value, or `default` when there is none. */
    function GetOr(default: T): (r: T)
      ensures Some? ==> r == value
      ensures None? ==> r == default
    {
      match this
      case Some(v) => v
      case None => default
    }
  }
}
